=== FILE: README.md ===
# Tsukiweb + Migaku mirror synchronisation, modelled in Dafny

The userscript `Tsukihime+Migaku.js` shows a "mirror" copy of the visual
novel's text panel (`.text-container`) for the Migaku reading overlay, and
hides the original panel, which it flags `data-mgk-ignore`. On every
child-list or text mutation under `body` it runs a callback. The callback marks the UI `menu` as ignored,
picks the source panel, and compares the panel's `innerHTML` with the cached
`lastHTML`. When they differ, it does the following:

- it rebuilds `#migaku-mirror-text` inside `#migaku-mirror-wrapper`, using `processMirrorContent`;
- it copies the panel's computed style onto the mirror;
- it flags the panel `data-mgk-ignore`;
- it schedules `runMigaku`, which clears `data-mgk-processed` and sends Alt+P.

`processMirrorContent` makes three passes:

1. Leading U+2002/U+3000 runs in non-dash spans move into `data-indent-content`.
2. `.dash` elements save their text in `data-dash-content` and show the text `<i></i>`.
3. A regex over the serialised markup wraps every `. ! ? 。 ！ ？` that is followed by one whitespace character.

The project models this in functional style:

- `jschars.dfy` (`JsChars`): the character classes. `IsJsWhitespace` is ECMAScript's `\s`: WhiteSpace and LineTerminator, ECMA-262 sections 12.2 and 12.3, 2023 edition.
- `strings.dfy` (`Strings`): substring tests, used by the CSS selector `[id*="migaku"]`.
- `options.dfy` (`Options`): the optional value.
- `markup.dfy` (`Markup`): the captured markup is a flat sequence of text runs and elements (tag, classes, attributes, text content). The module also has `getAttribute`, `setAttribute`, `classList.add`, and the HTML serialiser with its escaping.
- `punctuation.dfy` (`Punctuation`): the punctuation pass, as a string function.
- `transform.dfy` (`Transform`): the leading-space pass, the dash pass and `processMirrorContent`.
- `page.dfy` (`Page`): the page state, source selection and menu marking.
- `engine.dfy` (`Engine`): `runMigaku` and the timer that calls it.
- `observer.dfy` (`Observer`): the observer callback as one state transition, `Step`.
- `sync.dfy` (`Sync`): the start state, the invariant of reachable states, and the no-feedback lemmas.
- `scenarios.dfy` (`Scenarios`): worked instances of the three passes.

The browser's HTML fragment parser (`tempDiv.innerHTML = sourceHTML`) is code outside the script. It is the parameter `parse: string -> seq<Node>` of `ProcessMirrorContent` and `Step`. `getComputedStyle` is the `style` record stored with each panel. The key event becomes the counter `signalsSent`. The 200 ms timer becomes the counter `pendingTriggers`, with no time attached.

Four behaviours of the code that are easy to misread:

- The observer is registered for `childList`, `subtree` and `characterData` only (line 245), not for attribute changes. This is harmless in the model: `Step` treats every notification the same.
- The punctuation pass accepts any `\s` character after the mark, not only a space. It runs on the raw serialised string, so it can also match inside attribute values. The model rewrites the string exactly as the regex does.
- A wrapper that the host page takes away (it lives under `original.parentElement`, line 218) is not put back until the source text changes: while the source markup equals `lastHTML`, the guard at line 205 returns before the wrapper is looked up (`Sync.LostWrapperWaitsForTextChange`).
- The whole transform is not idempotent. A second dash pass copies the placeholder over the saved dash text (`FixDashNotIdempotent`). Idempotence holds for the leading-space pass and for the punctuation pass separately. The script does not re-run the transform on its own output, because the mirror element itself is never selected as a source (for copies of `.text-container` elements inside the mirror, see `Page.SelectSource` under "## Left out").

## Model

| member | source | states |
|---|---|---|
| JsChars.ClassesRelate | Tsukihime+Migaku.js:165 | both indent spaces are `\s` characters, and no sentence terminator of the punctuation class is one |
| Strings.ContainsIffOffset | Tsukihime+Migaku.js:204 | the substring test behind `[id*="migaku"]` holds exactly when the part occurs at some offset of the id |
| Markup.SetAttr | Tsukihime+Migaku.js:167 | `setAttribute` gives the named attribute the new value and leaves every other attribute's value alone; an existing attribute is overwritten in place, at the position of its first occurrence, with every other entry unchanged; a missing one is appended at the end |
| Markup.AddClass | Tsukihime+Migaku.js:169 | `classList.add` makes the class present and keeps every existing class in its order; a missing class is appended once, after them, and nothing else is added; a class already there leaves the list unchanged |
| Markup.Escape | Tsukihime+Migaku.js:177 | serialised text and attribute values never contain `<` or `>`, so the dash placeholder `<i></i>` is text and never child markup; serialised attribute values never contain `"` |
| Markup.UnescapeEscape | Tsukihime+Migaku.js:160 | parsing the character references back recovers exactly the escaped text or attribute value |
| Markup.UnescapeEscapeThen | Tsukihime+Migaku.js:160 | decoding an escaped string recovers it whatever markup follows it |
| Markup.SerializeNode | Tsukihime+Migaku.js:182 | a text node's markup has no tag characters and parses back to its data; an element's markup starts with `<` and ends with `>` |
| Markup.SerializeTextOnly | Tsukihime+Migaku.js:182 | the `innerHTML` of a fragment of text nodes holds no tag and parses back to the text, in order |
| Markup.SerializeConcat | Tsukihime+Migaku.js:182 | the serialised fragment is the concatenation of its nodes' markup, in order |
| Punctuation.FixPunctuation | Tsukihime+Migaku.js:182-184 | markup without a terminator-plus-whitespace pair passes through unchanged, and the rewrite never shortens the text |
| Punctuation.PunctSpanIsClean | Tsukihime+Migaku.js:183 | the replacement span holds no terminator-plus-whitespace pair of its own, begins with `<` and ends with `>` |
| Punctuation.FixPunctuationIsClean | Tsukihime+Migaku.js:182-184 | no terminator in the output is followed by a whitespace character |
| Punctuation.FixPunctuationIdempotent | Tsukihime+Migaku.js:182-184 | running the punctuation pass on its own output changes nothing |
| Punctuation.FixPunctuationSplit | Tsukihime+Migaku.js:182 | the global replace distributes over any split that does not separate a terminator from the whitespace after it |
| Punctuation.WrapsSpacedMark | Tsukihime+Migaku.js:182-184 | every terminator followed by any `\s` character becomes the fixed span around that terminator, whose `data-punct-space` is a single space; the whitespace character is dropped and the text on both sides is rewritten independently |
| Punctuation.CopiesOther | Tsukihime+Migaku.js:182 | every character that neither starts nor completes a match is copied in place, in order |
| Transform.IndentRunLength | Tsukihime+Migaku.js:165 | the length found is that of the maximal leading run of U+2002/U+3000: every character before it is one, the character at it is not |
| Transform.FixIndent | Tsukihime+Migaku.js:164-170 | for a non-dash span starting with an indent space: `data-indent-content` is a non-empty run of indent spaces, that run followed by the new content is the old content, the new content does not start with an indent space, `mgk-visual-indent` is added, and other classes and attributes are kept; any other node is returned unchanged |
| Transform.FixIndents | Tsukihime+Migaku.js:164-171 | each node is fixed on its own, no node of the result still needs the fix, and nodes that needed none are unchanged |
| Transform.FixIndentsIdempotent | Tsukihime+Migaku.js:164-171 | a second leading-space pass changes nothing |
| Transform.IndentRunSurvivesEscaping | Tsukihime+Migaku.js:165-168 | the regex applied to the span's `innerHTML` finds the same run as on its text, and stripping it from the markup strips it from the text |
| Transform.FixDash | Tsukihime+Migaku.js:175-178 | a `.dash` element gets `data-dash-content` equal to its previous text, its text becomes exactly `<i></i>`, and its tag, classes and other attributes are kept; other nodes are unchanged |
| Transform.FixDashes | Tsukihime+Migaku.js:175-178 | the dash pass keeps the node count and the set of dash elements, and afterwards every dash shows exactly the placeholder |
| Transform.FixIndentKeepsDashes | Tsukihime+Migaku.js:164-175 | the leading-space pass never adds or removes the `dash` class, so the dash pass sees the same dashes |
| Transform.DashPassSkipsIndentTargets | Tsukihime+Migaku.js:164-175 | the two DOM passes never touch the same element |
| Transform.FixDashNotIdempotent | Tsukihime+Migaku.js:176-177 | re-running the dash pass overwrites the saved dash text with the placeholder |
| Transform.ProcessMirrorContent | Tsukihime+Migaku.js:158-185 | the processed markup never holds a terminator followed by whitespace, and equals the serialised fragment after the two DOM passes whenever that holds none |
| Scenarios.IndentScenario | Tsukihime+Migaku.js:164-170 | a span `　　Hello` becomes a span `Hello` with class `mgk-visual-indent` and `data-indent-content` `　　` |
| Scenarios.DashScenario | Tsukihime+Migaku.js:175-178 | a `.dash` span `――` keeps its class, saves `――` and shows `<i></i>` |
| Scenarios.PunctuationScenario | Tsukihime+Migaku.js:182-184 | `Hi. Yo` becomes `Hi`, the span around `.`, then `Yo` |
| Page.FirstMatch | Tsukihime+Migaku.js:204 | `querySelector` finds the first matching element, and finds nothing only when no element matches |
| Page.MirrorNeverMatches | Tsukihime+Migaku.js:222 | the mirror has class `text-container`, but its id contains `migaku`, so the source selector never matches it |
| Page.SelectSource | Tsukihime+Migaku.js:204 | the source is the first panel with class `text-container` whose id does not contain `migaku`; the mirror element itself is never chosen, however many mirrors exist; elements inside the mirror's content are not candidates (see "## Left out") |
| Page.SelectSourceDependsOnIdsAndClasses | Tsukihime+Migaku.js:204 | which panel is selected depends only on the panels' ids and classes, not on markup, ignore flags, the menu, the cache or the mirror |
| Page.MarkMenu | Tsukihime+Migaku.js:198-202 | a first menu without `data-mgk-ignore` ends up marked, with all its descendants; an already marked menu, or no menu, is left as it was |
| Page.MarkMenuIdempotent | Tsukihime+Migaku.js:199 | marking twice writes nothing the second time |
| Engine.RunMigaku | Tsukihime+Migaku.js:140-147 | with a mirror present, its processed flag is cleared and exactly one activation signal is sent, leaving its markup and style alone; without a mirror nothing changes |
| Engine.FirePending | Tsukihime+Migaku.js:242 | a due trigger is consumed, and it sends a signal exactly when a mirror exists |
| Observer.Step | Tsukihime+Migaku.js:196-243 | the menu is always marked first. Without a source, or with source markup equal to `lastHTML`, nothing else changes. Otherwise: `lastHTML` becomes the source markup; the wrapper exists and was added only if absent; it holds exactly one unprocessed mirror whose markup is `processMirrorContent(lastHTML)` and whose inline style and `--dash-color`/`--dash-shadow` copy the snapshot; `--orig-lh` is the line height; the source is flagged ignored and the other panels are untouched; one trigger is scheduled. No panel's id, classes or markup ever change |
| Sync.InitSatisfiesInv | Tsukihime+Migaku.js:129 | the start state (`lastHTML` empty, no wrapper) satisfies the synchronisation invariant |
| Sync.ApplyKeepsInv | Tsukihime+Migaku.js:196-243 | notifications, due triggers, the host replacing the panels and the host removing the wrapper all keep the invariant: insertions exceed removals by exactly the one wrapper present now, and a present wrapper holds one mirror with the transform of the cached markup |
| Sync.RunKeepsInv | Tsukihime+Migaku.js:196-243 | along every sequence of events, including removals of the wrapper by the host, the script never inserts a wrapper while one is present, and any wrapper present holds exactly one mirror with the transform of the cached markup |
| Sync.LostWrapperWaitsForTextChange | Tsukihime+Migaku.js:205-219 | with no wrapper in the page, a notification inserts one exactly when the source markup differs from `lastHTML` |
| Sync.StepSettles | Tsukihime+Migaku.js:205-207 | after any step the guard is closed: the selected source's markup equals `lastHTML` |
| Sync.StepIgnoresOwnWrites | Tsukihime+Migaku.js:204-241 | a notification that follows the step's own writes, or any change confined to the wrapper, the mirror's flag, style or content string, or the timer, is a complete no-op, given that the selector looks only at host panels (see `Page.SelectSource` under "## Left out") |
| Sync.StepIdempotent | Tsukihime+Migaku.js:205 | two consecutive notifications with the same source markup rebuild at most once |
| Sync.TriggerDoesNotReopenGuard | Tsukihime+Migaku.js:242 | the deferred `runMigaku` does not make the next notification rebuild |
| Sync.GuardedStepRebuildsNothing | Tsukihime+Migaku.js:205 | when the guard rejects, no trigger is scheduled and the wrapper and cache are untouched |

## Left out

- The injected CSS text (lines 18-127). It is presentation, not logic.
- The `MutationObserver` registration (lines 196 and 245). Each call of `Step` is one delivered notification. Batching and delivery timing are not modelled.
- The Alt+P `KeyboardEvent` (lines 144-146). It is the counter `signalsSent`.
- The 200 ms delay of `setTimeout` (line 242). Scheduled calls are the count `pendingTriggers`, fired by `FirePending` in any order with other events. There is no clock.
- `getComputedStyle` (line 208). Each panel carries its computed values as opaque strings. Lengths and colours are not parsed.
- HTML parsing is the parameter `parse`. The model does not relate `parse` to the serialiser. It assumes that `parse` gives each element its classes without duplicates, as the DOM's class token set does; the `AddClass` and `SerializeNode` statements rely on this.
- `Unescape` stands for the part of the HTML parser that decodes the five character references the serialiser writes (`&amp;`, `&nbsp;`, `&quot;`, `&lt;`, `&gt;`). "Parses back" in the rows for `SerializeNode` and `SerializeTextOnly` means decoding through `Unescape`. `FixIndent` relies on this decoding: it edits the span's text directly, standing for the regex on `innerHTML` and the re-parse when `innerHTML` is assigned (line 168). `IndentRunSurvivesEscaping` shows the regex finds the same run either way. Other character references, and a real parser's tokenising, are not modelled.
- Markup.SerializeNode: writes `class` first, rebuilt from the class list, then the other attributes in order. An untouched element therefore loses the original spacing and duplicate tokens of its `class` attribute, its `class=""` is dropped, and its attribute order may change. The model's elements carry a token list, not the attribute text. It knows no void elements, and no raw-text elements (`style`, `script`, `xmp`, `iframe`, `noembed`, `noframes`, `plaintext`), whose text the HTML serialiser writes without escaping.
- Element content is text only: the model has no nested elements. This leaves out what happens when assigning an outer span's `innerHTML` (line 168) detaches inner spans that the static `querySelectorAll` list still holds.
- The mirror's own `innerHTML` setter (line 226) re-parses the processed markup. The model keeps the mirror's content as the string assigned.
- The Migaku engine itself is not modelled: its scan, the annotations it writes into the mirror, and its setting of `data-mgk-processed`.
- `original.parentElement` being null (line 218) would throw. The model appends the wrapper without a parent, and the selector sees the wrapper after the panels.
- Page.SelectSource: the candidates are the host panels and the mirror element itself, not the elements inside the mirror's content. `document.querySelector` at line 204 searches those too, and the mirror's content is a copy of the source's inner markup (line 226). So if the source markup holds an element with class `text-container` and an id without `migaku`, the browser can pick its copy in the mirror: once the host removes every panel, or when the wrapper sits before the matching panel. The script would then rebuild the mirror from the mirror's own markup. The model never selects it, so `SelectSource`, `StepIgnoresOwnWrites` and `StepSettles` hold only for pages whose source markup holds no such element. Modelling it would need the parser's element tree of the mirror content, which the model leaves to the `parse` parameter.
- Code points outside the Basic Multilingual Plane. JavaScript's non-unicode regex sees them as surrogate pairs, and the model sees them as one character. No surrogate is a terminator or whitespace, so the passes treat both the same.

=== FILE: engine.dfy ===
/** `runMigaku` and the timer that calls it: the engine itself is outside the
    model; only the two things the script does to it are kept. */
module Engine {
  import opened Options
  import opened Page

  /** `document.querySelector('#migaku-mirror-text')` finds something. */
  predicate HasMirror(p: PageState)
  {
    p.wrapper.Some? && |p.wrapper.value.mirrors| > 0
  }

  /** `runMigaku`: with a mirror present, the first mirror loses its processed
      flag and one activation signal goes out; everything else, including the
      mirror's markup and style, stays. Without a mirror nothing happens. */
  function RunMigaku(p: PageState): (r: PageState)
    ensures !HasMirror(p) ==> r == p
    ensures HasMirror(p) ==>
      && HasMirror(r)
      && |r.wrapper.value.mirrors| == |p.wrapper.value.mirrors|
      && !r.wrapper.value.mirrors[0].processed
      && r.wrapper.value.mirrors[0].content == p.wrapper.value.mirrors[0].content
      && r.wrapper.value.mirrors[0].style == p.wrapper.value.mirrors[0].style
      && (forall i :: 1 <= i < |r.wrapper.value.mirrors| ==> r.wrapper.value.mirrors[i] == p.wrapper.value.mirrors[i])
      && r.signalsSent == p.signalsSent + 1
      && r.(wrapper := p.wrapper, signalsSent := p.signalsSent) == p
  {
    if HasMirror(p) then
      var ms := p.wrapper.value.mirrors;
      p.(wrapper := Some(Wrapper(ms[0 := ms[0].(processed := false)])), signalsSent := p.signalsSent + 1)
    else p
  }

  /** One scheduled `setTimeout(runMigaku, 200)` comes due. */
  function FirePending(p: PageState): (r: PageState)
    requires p.pendingTriggers > 0
    ensures r.pendingTriggers == p.pendingTriggers - 1
    ensures r.signalsSent == p.signalsSent + (if HasMirror(p) then 1 else 0)
    ensures r.panels == p.panels && r.menu == p.menu && r.lastHtml == p.lastHtml
  {
    RunMigaku(p.(pendingTriggers := p.pendingTriggers - 1))
  }
}

=== FILE: jschars.dfy ===
/** Character classes the userscript's regular expressions use. */
module JsChars {

  /** The WhiteSpace production of ECMA-262 section 12.2 (2023 edition): TAB, VT, FF,
      ZWNBSP and every code point of Unicode general category "Zs". */
  predicate IsEcmaWhiteSpace(c: char)
  {
    || c == '\t' || c == '\U{000B}' || c == '\U{000C}' || c == '\U{FEFF}'
    || c == ' ' || c == '\U{00A0}' || c == '\U{1680}'
    || ('\U{2000}' <= c <= '\U{200A}')
    || c == '\U{202F}' || c == '\U{205F}' || c == '\U{3000}'
  }

  /** The LineTerminator production of ECMA-262 section 12.3 (2023 edition). */
  predicate IsEcmaLineTerminator(c: char)
  {
    c == '\n' || c == '\r' || c == '\U{2028}' || c == '\U{2029}'
  }

  /** The regular-expression class escape `\s`: WhiteSpace or LineTerminator
      (ECMA-262 section 22.2.2.9, CharacterClassEscape). */
  predicate IsJsWhitespace(c: char)
  {
    IsEcmaWhiteSpace(c) || IsEcmaLineTerminator(c)
  }

  /** The class `[\u2002\u3000]` of the leading-space fix: EN SPACE and IDEOGRAPHIC SPACE. */
  predicate IsIndentSpace(c: char)
  {
    c == '\U{2002}' || c == '\U{3000}'
  }

  /** The class `[.!?。！？]` of the punctuation fix: Latin and full-width sentence terminators. */
  predicate IsTerminalMark(c: char)
  {
    c == '.' || c == '!' || c == '?' || c == '\U{3002}' || c == '\U{FF01}' || c == '\U{FF1F}'
  }

  /** Both indent spaces are `\s` characters, and no terminator is one. */
  lemma ClassesRelate(c: char)
    ensures IsIndentSpace(c) ==> IsJsWhitespace(c)
    ensures IsTerminalMark(c) ==> !IsJsWhitespace(c)
  {
  }
}

=== FILE: markup.dfy ===
/** The captured markup as the two DOM passes see it: a flat sequence of text
    runs and elements whose content is plain text (no nested elements), plus
    the serialiser that turns it back into the string the punctuation pass
    rewrites. */
module Markup {
  import opened Options
  import opened Strings

  datatype Attr = Attr(name: string, value: string)

  datatype Node =
    | Text(data: string)
    | Element(tag: string, classes: seq<string>, attrs: seq<Attr>, content: string)

  /** `getAttribute`: the value of the first attribute called `name`. */
  function AttrValue(attrs: seq<Attr>, name: string): Option<string>
  {
    if |attrs| == 0 then None
    else if attrs[0].name == name then Some(attrs[0].value)
    else AttrValue(attrs[1..], name)
  }

  /** `k` is the position of the first attribute called `name`. */
  predicate FirstNamedAt(attrs: seq<Attr>, name: string, k: int)
  {
    0 <= k < |attrs| && attrs[k].name == name
    && forall j :: 0 <= j < k ==> attrs[j].name != name
  }

  /** `setAttribute`: an existing attribute keeps its place and takes the new
      value; a missing one is appended. */
  function SetAttr(attrs: seq<Attr>, name: string, value: string): (r: seq<Attr>)
    ensures AttrValue(r, name) == Some(value)
    ensures forall other :: other != name ==> AttrValue(r, other) == AttrValue(attrs, other)
    ensures AttrValue(attrs, name).Some? ==> |r| == |attrs|
    ensures AttrValue(attrs, name).Some? ==>
              exists k :: FirstNamedAt(attrs, name, k) && r == attrs[k := Attr(name, value)]
    ensures AttrValue(attrs, name).None? ==> r == attrs + [Attr(name, value)]
  {
    if |attrs| == 0 then [Attr(name, value)]
    else if attrs[0].name == name then
      assert FirstNamedAt(attrs, name, 0);
      assert [Attr(name, value)] + attrs[1..] == attrs[0 := Attr(name, value)];
      [Attr(name, value)] + attrs[1..]
    else
      var rest := SetAttr(attrs[1..], name, value);
      assert AttrValue(attrs, name).Some? ==>
               exists k :: FirstNamedAt(attrs, name, k) && [attrs[0]] + rest == attrs[k := Attr(name, value)] by {
        if AttrValue(attrs, name).Some? {
          var k :| FirstNamedAt(attrs[1..], name, k) && rest == attrs[1..][k := Attr(name, value)];
          assert FirstNamedAt(attrs, name, k + 1);
          assert [attrs[0]] + rest == attrs[k + 1 := Attr(name, value)];
        }
      }
      [attrs[0]] + rest
  }

  /** `classList.add`: a class already present is not repeated, and a missing
      one is appended once, after the existing classes. */
  function AddClass(classes: seq<string>, c: string): (r: seq<string>)
    ensures c in r
    ensures forall x :: x in classes ==> x in r
    ensures forall x :: x in r ==> x in classes || x == c
    ensures c in classes ==> r == classes
    ensures |classes| <= |r| <= |classes| + 1 && r[..|classes|] == classes
  {
    if c in classes then classes else classes + [c]
  }

  /** The HTML serialiser's escaping of one character ("escaping a string" in
      the HTML Standard's fragment serialisation algorithm), in text
      (`inAttribute` false) or in a double-quoted attribute value: `&` and
      no-break space always, `"` only in attributes, `<` and `>` in both. */
  function EscapeChar(c: char, inAttribute: bool): string
  {
    if c == '&' then "&amp;"
    else if c == '\U{00A0}' then "&nbsp;"
    else if inAttribute && c == '"' then "&quot;"
    else if c == '<' then "&lt;"
    else if c == '>' then "&gt;"
    else [c]
  }

  /** Escaping of a whole string. Escaped text or attribute values never hold
      a `<` or `>`, so nothing escaped can ever read back as a tag; an escaped
      attribute value never holds the `"` that would end it. */
  function Escape(s: string, inAttribute: bool): (r: string)
    ensures '<' !in r && '>' !in r
    ensures inAttribute ==> '"' !in r
    ensures |r| >= |s|
  {
    if |s| == 0 then "" else EscapeChar(s[0], inAttribute) + Escape(s[1..], inAttribute)
  }

  /** The HTML parser's decoding of the five character references the
      serialiser emits; every other character stands for itself. */
  function Unescape(s: string): string
    decreases |s|
  {
    if |s| == 0 then ""
    else if IsPrefix("&amp;", s) then "&" + Unescape(s[5..])
    else if IsPrefix("&nbsp;", s) then "\U{00A0}" + Unescape(s[6..])
    else if IsPrefix("&quot;", s) then "\"" + Unescape(s[6..])
    else if IsPrefix("&lt;", s) then "<" + Unescape(s[4..])
    else if IsPrefix("&gt;", s) then ">" + Unescape(s[4..])
    else [s[0]] + Unescape(s[1..])
  }

  lemma DiffersAt(prefix: string, s: string, i: nat)
    requires i < |prefix| && i < |s| && prefix[i] != s[i]
    ensures !IsPrefix(prefix, s)
  {
    if |prefix| <= |s| {
      assert s[..|prefix|][i] == s[i];
    }
  }

  /** Decoding a reference `ref` that stands for `c`, where no reference
      tried before it in `Unescape` matches `ref` (they differ at index 1). */
  lemma UnescapeReference(ref: string, c: char, rest: string)
    requires ref in ["&amp;", "&nbsp;", "&quot;", "&lt;", "&gt;"]
    requires ref == "&amp;" ==> c == '&'
    requires ref == "&nbsp;" ==> c == '\U{00A0}'
    requires ref == "&quot;" ==> c == '"'
    requires ref == "&lt;" ==> c == '<'
    requires ref == "&gt;" ==> c == '>'
    ensures Unescape(ref + rest) == [c] + Unescape(rest)
  {
    var s := ref + rest;
    assert s[..|ref|] == ref && s[|ref|..] == rest;
    assert IsPrefix(ref, s);
    if ref != "&amp;" {
      assert s[1] == ref[1];
      DiffersAt("&amp;", s, 1);
      if ref != "&nbsp;" {
        DiffersAt("&nbsp;", s, 1);
        if ref != "&quot;" {
          DiffersAt("&quot;", s, 1);
          if ref != "&lt;" {
            DiffersAt("&lt;", s, 1);
          }
        }
      }
    }
  }

  /** Any character other than `&` stands for itself. */
  lemma UnescapePlain(c: char, rest: string)
    requires c != '&'
    ensures Unescape([c] + rest) == [c] + Unescape(rest)
  {
    var s := [c] + rest;
    assert s[0] == c && s[1..] == rest;
    DiffersAt("&amp;", s, 0);
    DiffersAt("&nbsp;", s, 0);
    DiffersAt("&quot;", s, 0);
    DiffersAt("&lt;", s, 0);
    DiffersAt("&gt;", s, 0);
  }

  lemma EscapeCharThenUnescape(c: char, inAttribute: bool, rest: string)
    ensures Unescape(EscapeChar(c, inAttribute) + rest) == [c] + Unescape(rest)
  {
    var e := EscapeChar(c, inAttribute);
    if e == [c] {
      UnescapePlain(c, rest);
    } else {
      UnescapeReference(e, c, rest);
    }
  }

  lemma EscapeThenSplit(s: string, inAttribute: bool, rest: string)
    requires |s| > 0
    ensures Escape(s, inAttribute) + rest == EscapeChar(s[0], inAttribute) + (Escape(s[1..], inAttribute) + rest)
  {
  }

  lemma JoinAfterHead(s: string, u: string)
    requires |s| > 0
    ensures [s[0]] + (s[1..] + u) == s + u
  {
    assert [s[0]] + s[1..] == s;
  }

  /** Decoding undoes escaping, in both modes, whatever follows the escaped part. */
  lemma {:induction false} UnescapeEscapeThen(s: string, inAttribute: bool, rest: string)
    ensures Unescape(Escape(s, inAttribute) + rest) == s + Unescape(rest)
  {
    if |s| > 0 {
      var tail := Escape(s[1..], inAttribute);
      EscapeThenSplit(s, inAttribute, rest);
      EscapeCharThenUnescape(s[0], inAttribute, tail + rest);
      UnescapeEscapeThen(s[1..], inAttribute, rest);
      JoinAfterHead(s, Unescape(rest));
    } else {
      assert Escape(s, inAttribute) + rest == rest;
    }
  }

  /** Decoding undoes escaping, in both modes. */
  lemma {:induction false} UnescapeEscape(s: string, inAttribute: bool)
    ensures Unescape(Escape(s, inAttribute)) == s
  {
    UnescapeEscapeThen(s, inAttribute, "");
    assert Escape(s, inAttribute) + "" == Escape(s, inAttribute);
  }

  function JoinClasses(classes: seq<string>): string
  {
    if |classes| == 0 then ""
    else if |classes| == 1 then classes[0]
    else classes[0] + " " + JoinClasses(classes[1..])
  }

  function SerializeAttrs(attrs: seq<Attr>): string
  {
    if |attrs| == 0 then ""
    else " " + attrs[0].name + "=\"" + Escape(attrs[0].value, true) + "\"" + SerializeAttrs(attrs[1..])
  }

  /** `innerHTML` of one node. A text node never serialises to anything that
      looks like a tag and parses back to its own data; an element is
      delimited by its start and end tags. */
  function SerializeNode(n: Node): (r: string)
    ensures n.Text? ==> '<' !in r && '>' !in r && Unescape(r) == n.data
    ensures n.Element? ==> |r| > 0 && r[0] == '<' && r[|r| - 1] == '>'
  {
    match n
    case Text(data) =>
      UnescapeEscape(data, false);
      Escape(data, false)
    case Element(tag, classes, attrs, content) =>
      var classAttr := if |classes| == 0 then "" else " class=\"" + Escape(JoinClasses(classes), true) + "\"";
      "<" + tag + classAttr + SerializeAttrs(attrs) + ">" + Escape(content, false) + "</" + tag + ">"
  }

  /** The characters of a fragment's text nodes, in order. */
  function TextData(ns: seq<Node>): string
  {
    if |ns| == 0 then "" else (if ns[0].Text? then ns[0].data else "") + TextData(ns[1..])
  }

  /** `innerHTML` of a container holding `ns`. */
  function Serialize(ns: seq<Node>): string
  {
    if |ns| == 0 then "" else SerializeNode(ns[0]) + Serialize(ns[1..])
  }

  /** A fragment of text nodes only serialises to markup without any tag, and
      that markup parses back to its text. */
  lemma {:induction false} SerializeTextOnly(ns: seq<Node>)
    requires forall i :: 0 <= i < |ns| ==> ns[i].Text?
    ensures '<' !in Serialize(ns) && '>' !in Serialize(ns)
    ensures Unescape(Serialize(ns)) == TextData(ns)
  {
    if |ns| > 0 {
      SerializeTextOnly(ns[1..]);
      UnescapeEscapeThen(ns[0].data, false, Serialize(ns[1..]));
    }
  }

  /** Serialising is compositional: the container's markup is the nodes' markup in order. */
  lemma {:induction false} SerializeConcat(a: seq<Node>, b: seq<Node>)
    ensures Serialize(a + b) == Serialize(a) + Serialize(b)
  {
    if |a| > 0 {
      assert (a + b)[1..] == a[1..] + b;
      SerializeConcat(a[1..], b);
    } else {
      assert a + b == b;
    }
  }
}

=== FILE: observer.dfy ===
/** The `MutationObserver` callback as one transition of the page state. */
module Observer {
  import opened Options
  import opened Markup
  import opened Transform
  import opened Page

  /** The guard lets the cycle through: a source exists and its markup differs from the cache. */
  predicate Changed(p: PageState)
  {
    SelectSource(p).Some? && p.panels[SelectSource(p).value].markup != p.lastHtml
  }

  /** The mirror's inline style is the snapshot: the five properties, with
      `--dash-color` the colour and `--dash-shadow` the shadow. */
  predicate StyleCopied(m: MirrorStyle, s: ComputedStyle)
  {
    && m.textShadow == s.textShadow && m.fontSize == s.fontSize && m.fontFamily == s.fontFamily
    && m.color == s.color && m.textAlign == s.textAlign
    && m.dashColor == s.color && m.dashShadow == s.textShadow
  }

  /** What an accepted cycle leaves behind, for the source `p.panels[i]`. */
  predicate AcceptedCycle(p: PageState, r: PageState, parse: string -> seq<Node>)
  {
    && SelectSource(p).Some?
    && var i := SelectSource(p).value;
    && var source := p.panels[i];
    && r.lastHtml == source.markup
    && r.wrapper.Some? && |r.wrapper.value.mirrors| == 1
    && r.wrapper.value.mirrors[0].content == ProcessMirrorContent(parse, r.lastHtml)
    && StyleCopied(r.wrapper.value.mirrors[0].style, source.style)
    && !r.wrapper.value.mirrors[0].processed
    && r.origLineHeight == Some(source.style.lineHeight)
    && |r.panels| == |p.panels| && r.panels[i].ignored
    && (forall j :: 0 <= j < |p.panels| && j != i ==> r.panels[j] == p.panels[j])
    && r.pendingTriggers == p.pendingTriggers + 1
    && r.wrappersAppended == p.wrappersAppended + (if p.wrapper.None? then 1 else 0)
  }

  /** One observer callback. The menu is marked first in every case. When
      there is no source, or its markup equals the cache, nothing else
      changes. Otherwise the cycle runs: cache, `--orig-lh`, wrapper created
      only when missing, one fresh mirror holding the processed markup and the
      copied style, the source flagged ignored, one trigger scheduled. In no
      case does the step change any panel's id, classes or markup, nor send a
      signal itself. */
  function Step(p: PageState, parse: string -> seq<Node>): (r: PageState)
    ensures r.menu == MarkMenu(p.menu)
    ensures |r.panels| == |p.panels|
    ensures forall i :: 0 <= i < |p.panels| ==> r.panels[i].(ignored := p.panels[i].ignored) == p.panels[i]
    ensures r.signalsSent == p.signalsSent
    ensures r.wrappersRemoved == p.wrappersRemoved
    ensures !Changed(p) ==> r == p.(menu := MarkMenu(p.menu))
    ensures Changed(p) ==> AcceptedCycle(p, r, parse)
  {
    var marked := p.(menu := MarkMenu(p.menu));
    SelectSourceDependsOnIdsAndClasses(p, marked);
    match SelectSource(marked)
    case None => marked
    case Some(i) =>
      var original := marked.panels[i];
      if original.markup == marked.lastHtml then marked
      else
        var s := original.style;
        var mirror := Mirror(
          ProcessMirrorContent(parse, original.markup),
          MirrorStyle(s.textShadow, s.fontSize, s.fontFamily, s.color, s.textAlign, s.color, s.textShadow),
          false);
        marked.(
          lastHtml := original.markup,
          origLineHeight := Some(s.lineHeight),
          wrapper := Some(Wrapper([mirror])),
          wrappersAppended := marked.wrappersAppended + (if marked.wrapper.None? then 1 else 0),
          panels := marked.panels[i := original.(ignored := true)],
          pendingTriggers := marked.pendingTriggers + 1)
  }
}

=== FILE: options.dfy ===
/** The optional value used wherever the userscript's lookups may find nothing
    (`document.querySelector` returning null, `getAttribute` on a missing name). */
module Options {

  datatype Option<+T> = None | Some(value: T)

}

=== FILE: page.dfy ===
/** The abstract page the observer works on: the host's text panels, its first
    `menu`, the mirror wrapper, and the script's own cache and counters. */
module Page {
  import opened Options
  import opened Strings

  const TextContainerClass := "text-container"
  /** `[id*="migaku"]`: the part of an id that marks an element as the script's own. */
  const ReservedIdPart := "migaku"
  const MirrorId := "migaku-mirror-text"

  /** The values `getComputedStyle` reports for a panel; opaque strings. */
  datatype ComputedStyle = ComputedStyle(
    lineHeight: string, fontSize: string, fontFamily: string,
    color: string, textAlign: string, textShadow: string)

  /** An element of the host page that may carry `text-container`; `ignored`
      is its `data-mgk-ignore` attribute, which is not part of its markup. */
  datatype Panel = Panel(id: string, classes: seq<string>, markup: string, ignored: bool, style: ComputedStyle)

  /** The first `menu` element: its own ignore flag and those of its descendants. */
  datatype Menu = Menu(ignored: bool, descendantsIgnored: seq<bool>)

  /** The inline style written on the mirror, including the two custom properties. */
  datatype MirrorStyle = MirrorStyle(
    textShadow: string, fontSize: string, fontFamily: string, color: string, textAlign: string,
    dashColor: string, dashShadow: string)

  /** `#migaku-mirror-text`: its markup, inline style and the engine's `data-mgk-processed` flag. */
  datatype Mirror = Mirror(content: string, style: MirrorStyle, processed: bool)

  /** `#migaku-mirror-wrapper` and the mirrors it holds. */
  datatype Wrapper = Wrapper(mirrors: seq<Mirror>)

  datatype PageState = PageState(
    panels: seq<Panel>,
    menu: Option<Menu>,
    lastHtml: string,
    origLineHeight: Option<string>,   // `--orig-lh` on the document element
    wrapper: Option<Wrapper>,
    wrappersAppended: nat,            // wrapper elements the script has inserted
    wrappersRemoved: nat,             // wrapper elements the host has taken out of the page
    pendingTriggers: nat,             // scheduled `runMigaku` calls not yet run
    signalsSent: nat)                 // activation key presses dispatched to the engine

  /** What the source selector looks at: an element's id and classes, in document order. */
  datatype Candidate = Candidate(id: string, classes: seq<string>)

  /** `.text-container:not([id*="migaku"])` */
  predicate MatchesSourceSelector(c: Candidate)
  {
    TextContainerClass in c.classes && !AttrContains(c.id, ReservedIdPart)
  }

  /** `querySelector`: the index of the first candidate the selector matches. */
  function FirstMatch(cs: seq<Candidate>): (r: Option<nat>)
    ensures r.Some? ==> r.value < |cs| && MatchesSourceSelector(cs[r.value])
    ensures r.Some? ==> forall j :: 0 <= j < r.value ==> !MatchesSourceSelector(cs[j])
    ensures r.None? ==> forall j :: 0 <= j < |cs| ==> !MatchesSourceSelector(cs[j])
  {
    if |cs| == 0 then None
    else if MatchesSourceSelector(cs[0]) then Some(0)
    else match FirstMatch(cs[1..])
      case None => None
      case Some(k) => Some(k + 1)
  }

  function PanelCandidates(panels: seq<Panel>): (cs: seq<Candidate>)
    ensures |cs| == |panels|
    ensures forall i :: 0 <= i < |panels| ==> cs[i] == Candidate(panels[i].id, panels[i].classes)
  {
    seq(|panels|, i requires 0 <= i < |panels| => Candidate(panels[i].id, panels[i].classes))
  }

  /** The mirror element as the selector sees it: `<div id="migaku-mirror-text" class="text-container">`. */
  const MirrorCandidate := Candidate(MirrorId, [TextContainerClass])

  function WrapperCandidates(w: Option<Wrapper>): seq<Candidate>
  {
    if w.None? then [] else seq(|w.value.mirrors|, _ => MirrorCandidate)
  }

  /** The document's elements in order: the host's panels, then the wrapper appended after them. */
  function DocumentCandidates(p: PageState): seq<Candidate>
  {
    PanelCandidates(p.panels) + WrapperCandidates(p.wrapper)
  }

  /** The mirror carries the `text-container` class but its id holds the reserved part. */
  lemma MirrorNeverMatches()
    ensures !MatchesSourceSelector(MirrorCandidate)
  {
    assert IsPrefix(ReservedIdPart, MirrorId);
  }

  /** The source panel: the first panel matching the selector, whatever mirrors
      exist; the selection never yields the mirror. */
  function SelectSource(p: PageState): (r: Option<nat>)
    ensures r.Some? ==> r.value < |p.panels|
    ensures r.Some? ==> MatchesSourceSelector(Candidate(p.panels[r.value].id, p.panels[r.value].classes))
    ensures r.Some? ==> forall j :: 0 <= j < r.value ==>
              !MatchesSourceSelector(Candidate(p.panels[j].id, p.panels[j].classes))
    ensures r.None? ==> forall j :: 0 <= j < |p.panels| ==>
              !MatchesSourceSelector(Candidate(p.panels[j].id, p.panels[j].classes))
  {
    var cs := DocumentCandidates(p);
    var r := FirstMatch(cs);
    MirrorNeverMatches();
    assert forall j :: |p.panels| <= j < |cs| ==> cs[j] == MirrorCandidate;
    assert forall j :: 0 <= j < |p.panels| ==> cs[j] == Candidate(p.panels[j].id, p.panels[j].classes);
    r
  }

  /** Selection depends only on the panels' ids and classes: not on their
      markup or ignore flags, the menu, the cache or the mirror. */
  lemma SelectSourceDependsOnIdsAndClasses(p: PageState, q: PageState)
    requires PanelCandidates(p.panels) == PanelCandidates(q.panels)
    ensures SelectSource(p) == SelectSource(q)
  {
    var a, b := SelectSource(p), SelectSource(q);
    assert |p.panels| == |q.panels|;
    forall j | 0 <= j < |p.panels|
      ensures Candidate(p.panels[j].id, p.panels[j].classes) == Candidate(q.panels[j].id, q.panels[j].classes)
    {
      assert PanelCandidates(p.panels)[j] == PanelCandidates(q.panels)[j];
    }
    if a.Some? && b.Some? {
      if a.value < b.value {
        assert false;
      } else if b.value < a.value {
        assert false;
      }
    }
  }

  /** The menu fix: when the first menu is not yet ignored, it and all its
      descendants are marked; otherwise nothing is written. */
  function MarkMenu(m: Option<Menu>): (r: Option<Menu>)
    ensures r.None? <==> m.None?
    ensures m.Some? && m.value.ignored ==> r == m
    ensures m.Some? && !m.value.ignored ==>
              && r.value.ignored
              && |r.value.descendantsIgnored| == |m.value.descendantsIgnored|
              && forall i :: 0 <= i < |r.value.descendantsIgnored| ==> r.value.descendantsIgnored[i]
  {
    match m
    case None => None
    case Some(menu) =>
      if menu.ignored then m
      else Some(Menu(true, seq(|menu.descendantsIgnored|, _ => true)))
  }

  /** Marking the menu twice writes nothing the second time. */
  lemma MarkMenuIdempotent(m: Option<Menu>)
    ensures MarkMenu(MarkMenu(m)) == MarkMenu(m)
  {
  }
}

=== FILE: punctuation.dfy ===
/** The punctuation fix: the global replace of `([.!?。！？])\s` over the
    serialised markup, which wraps each sentence terminator that is followed
    by one whitespace character and drops that character. */
module Punctuation {
  import opened JsChars

  /** Opening tag of the wrapper; its `data-punct-space` is always one ASCII space. */
  const SpanOpen: string := "<span class=\"punct-space-fix\" data-punct-space=\" \">"
  const SpanClose: string := "</span>"

  /** The replacement text for the terminator `mark`. */
  function PunctSpan(mark: char): string
  {
    SpanOpen + [mark] + SpanClose
  }

  /** A terminator immediately followed by a `\s` character starts `s`. */
  predicate StartsWithSpacedMark(s: string)
  {
    |s| >= 2 && IsTerminalMark(s[0]) && IsJsWhitespace(s[1])
  }

  /** No terminator in `s` is followed by a `\s` character: the regex finds nothing. */
  predicate NoSpacedMark(s: string)
    decreases |s|
  {
    |s| < 2 || (!StartsWithSpacedMark(s) && NoSpacedMark(s[1..]))
  }

  /** The replace, scanning left to right with non-overlapping matches: a match
      consumes two characters, anything else is copied and the scan moves on by one.
      Text without a match comes back unchanged, and the result is never shorter. */
  function FixPunctuation(s: string): (r: string)
    ensures NoSpacedMark(s) ==> r == s
    ensures |r| >= |s|
    decreases |s|
  {
    if |s| == 0 then ""
    else if StartsWithSpacedMark(s) then PunctSpan(s[0]) + FixPunctuation(s[2..])
    else [s[0]] + FixPunctuation(s[1..])
  }

  /** The first character of the output is the input's first character or the `<` of a wrapper. */
  lemma FixPunctuationHead(s: string)
    ensures |s| > 0 ==> |FixPunctuation(s)| > 0
    ensures |s| > 0 ==> FixPunctuation(s)[0] == s[0] || FixPunctuation(s)[0] == '<'
  {
    if StartsWithSpacedMark(s) {
      SpanOpenDelimited();
      assert PunctSpan(s[0])[0] == SpanOpen[0] == '<';
    }
  }

  /** No character of `s` is a sentence terminator. */
  predicate HasNoMark(s: string)
  {
    forall i :: 0 <= i < |s| ==> !IsTerminalMark(s[i])
  }

  lemma {:induction false} NoMarkMeansNoSpacedMark(s: string)
    requires HasNoMark(s)
    ensures NoSpacedMark(s)
    decreases |s|
  {
    if |s| >= 2 {
      NoMarkMeansNoSpacedMark(s[1..]);
    }
  }

  /** Joining two clean strings stays clean unless the join itself makes a match. */
  lemma {:induction false} NoSpacedMarkConcat(a: string, b: string)
    requires NoSpacedMark(a) && NoSpacedMark(b)
    requires |a| == 0 || |b| == 0 || !IsTerminalMark(a[|a| - 1]) || !IsJsWhitespace(b[0])
    ensures NoSpacedMark(a + b)
    decreases |a|
  {
    if |a| == 0 {
      assert a + b == b;
    } else if |a| == 1 {
      assert (a + b)[1..] == b;
    } else {
      assert (a + b)[1..] == a[1..] + b;
      NoSpacedMarkConcat(a[1..], b);
    }
  }

  /** The opening tag is the three pieces `<span class="punct-`, `space-fix" data-` and `punct-space=" ">` joined. */
  lemma SpanOpenPieces(a: string, b: string, c: string)
    requires a == "<span class=\"punct-" && b == "space-fix\" data-" && c == "punct-space=\" \">"
    ensures SpanOpen == a + b + c
  {
  }

  lemma SpanOpenDelimited()
    ensures |SpanOpen| > 0 && SpanOpen[0] == '<' && SpanOpen[|SpanOpen| - 1] == '>'
  {
    var a, b, c := "<span class=\"punct-", "space-fix\" data-", "punct-space=\" \">";
    SpanOpenPieces(a, b, c);
    assert (a + b + c)[0] == a[0];
    assert (a + b + c)[|a + b + c| - 1] == c[|c| - 1];
  }

  lemma SpanOpenHasNoMark()
    ensures HasNoMark(SpanOpen)
  {
    var a, b, c := "<span class=\"punct-", "space-fix\" data-", "punct-space=\" \">";
    SpanOpenPieces(a, b, c);
    assert HasNoMark(a);
    assert HasNoMark(b);
    assert HasNoMark(c);
    forall i | 0 <= i < |a + b + c|
      ensures !IsTerminalMark((a + b + c)[i])
    {
      if i < |a| {
        assert (a + b + c)[i] == a[i];
      } else if i < |a| + |b| {
        assert (a + b + c)[i] == b[i - |a|];
      } else {
        assert (a + b + c)[i] == c[i - |a| - |b|];
      }
    }
  }

  lemma SpanCloseIsClean()
    ensures NoSpacedMark(SpanClose)
    ensures SpanClose[0] == '<' && SpanClose[|SpanClose| - 1] == '>'
  {
    assert HasNoMark(SpanClose);
    NoMarkMeansNoSpacedMark(SpanClose);
  }

  /** A terminator between two tags starts no match: the tag after it begins with `<`. */
  lemma {:induction false} BetweenTagsIsClean(open: string, mark: char, close: string)
    requires HasNoMark(open) && |open| > 0 && open[0] == '<'
    requires NoSpacedMark(close) && |close| > 0 && close[0] == '<' && close[|close| - 1] == '>'
    ensures NoSpacedMark(open + [mark] + close)
    ensures (open + [mark] + close)[0] == '<'
    ensures (open + [mark] + close)[|open + [mark] + close| - 1] == '>'
  {
    NoMarkMeansNoSpacedMark(open);
    var tail := [mark] + close;
    assert tail[1..] == close;
    assert NoSpacedMark(tail);
    NoSpacedMarkConcat(open, tail);
    assert open + [mark] + close == open + tail;
  }

  /** The wrapper holds no match of its own: the only terminator in it is `mark`, followed by `<`. */
  lemma PunctSpanIsClean(mark: char)
    ensures NoSpacedMark(PunctSpan(mark))
    ensures PunctSpan(mark)[0] == '<' && PunctSpan(mark)[|PunctSpan(mark)| - 1] == '>'
  {
    SpanOpenDelimited();
    SpanOpenHasNoMark();
    SpanCloseIsClean();
    BetweenTagsIsClean(SpanOpen, mark, SpanClose);
  }

  /** The output never contains a terminator followed by whitespace. */
  lemma {:induction false} FixPunctuationIsClean(s: string)
    ensures NoSpacedMark(FixPunctuation(s))
    decreases |s|
  {
    if |s| == 0 {
    } else if StartsWithSpacedMark(s) {
      FixPunctuationIsClean(s[2..]);
      PunctSpanIsClean(s[0]);
      NoSpacedMarkConcat(PunctSpan(s[0]), FixPunctuation(s[2..]));
    } else {
      FixPunctuationIsClean(s[1..]);
      FixPunctuationHead(s[1..]);
      ClassesRelate(s[0]);
      NoSpacedMarkConcat([s[0]], FixPunctuation(s[1..]));
    }
  }

  /** Running the pass on its own output changes nothing. */
  lemma FixPunctuationIdempotent(s: string)
    ensures FixPunctuation(FixPunctuation(s)) == FixPunctuation(s)
  {
    FixPunctuationIsClean(s);
  }

  /** Regrouping a three-part concatenation. */
  lemma ConcatAssoc(whole: string, left: string, middle: string, right: string, leftMiddle: string)
    requires whole == left + (middle + right) && leftMiddle == left + middle
    ensures whole == leftMiddle + right
  {
  }

  lemma UnfoldWrapped(s: string)
    requires StartsWithSpacedMark(s)
    ensures FixPunctuation(s) == PunctSpan(s[0]) + FixPunctuation(s[2..])
  {
  }

  lemma UnfoldCopied(s: string)
    requires |s| > 0 && !StartsWithSpacedMark(s)
    ensures FixPunctuation(s) == [s[0]] + FixPunctuation(s[1..])
  {
  }

  lemma SplitWrappedStep(a: string, b: string)
    requires StartsWithSpacedMark(a)
    requires FixPunctuation(a[2..] + b) == FixPunctuation(a[2..]) + FixPunctuation(b)
    ensures FixPunctuation(a + b) == FixPunctuation(a) + FixPunctuation(b)
  {
    var ab := a + b;
    assert ab[0] == a[0];
    assert ab[2..] == a[2..] + b;
    StartsWithSpacedMarkPrefix(a, b);
    UnfoldWrapped(ab);
    UnfoldWrapped(a);
    ConcatAssoc(FixPunctuation(ab), PunctSpan(a[0]), FixPunctuation(a[2..]), FixPunctuation(b), FixPunctuation(a));
  }

  /** Whether a string starts with a match depends only on its first two characters. */
  lemma StartsWithSpacedMarkPrefix(a: string, b: string)
    requires |a| > 0
    ensures StartsWithSpacedMark(a + b) <==> StartsWithSpacedMark(a) || (|a| == 1 && |b| > 0 && StartsWithSpacedMark([a[0], b[0]]))
  {
    var ab := a + b;
    assert ab[0] == a[0];
    if |a| >= 2 {
      assert ab[1] == a[1];
    } else if |b| > 0 {
      assert ab[1] == b[0];
    }
  }

  lemma SplitCopiedStep(a: string, b: string)
    requires |a| > 0 && !StartsWithSpacedMark(a + b)
    requires FixPunctuation(a[1..] + b) == FixPunctuation(a[1..]) + FixPunctuation(b)
    ensures FixPunctuation(a + b) == FixPunctuation(a) + FixPunctuation(b)
  {
    var ab := a + b;
    assert ab[0] == a[0];
    assert ab[1..] == a[1..] + b;
    StartsWithSpacedMarkPrefix(a, b);
    UnfoldCopied(ab);
    UnfoldCopied(a);
    ConcatAssoc(FixPunctuation(ab), [a[0]], FixPunctuation(a[1..]), FixPunctuation(b), FixPunctuation(a));
  }

  /** The pass distributes over a split that does not cut a match in two. */
  lemma {:induction false} FixPunctuationSplit(a: string, b: string)
    requires |a| == 0 || |b| == 0 || !IsTerminalMark(a[|a| - 1]) || !IsJsWhitespace(b[0])
    ensures FixPunctuation(a + b) == FixPunctuation(a) + FixPunctuation(b)
    decreases |a|
  {
    if |a| == 0 {
      assert a + b == b;
    } else if StartsWithSpacedMark(a + b) {
      if |a| == 1 {
        assert false;
      }
      assert StartsWithSpacedMark(a);
      FixPunctuationSplit(a[2..], b);
      SplitWrappedStep(a, b);
    } else {
      FixPunctuationSplit(a[1..], b);
      SplitCopiedStep(a, b);
    }
  }

  /** Every terminator followed by whitespace becomes the wrapper around it,
      and the whitespace character is gone, whichever one it was. */
  lemma WrapsSpacedMark(a: string, mark: char, space: char, b: string)
    requires IsTerminalMark(mark) && IsJsWhitespace(space)
    ensures FixPunctuation(a + [mark, space] + b) == FixPunctuation(a) + PunctSpan(mark) + FixPunctuation(b)
  {
    var t := [mark, space] + b;
    assert a + [mark, space] + b == a + t;
    assert t[0] == mark && t[1] == space && t[2..] == b;
    ClassesRelate(mark);
    FixPunctuationSplit(a, t);
    UnfoldWrapped(t);
    var l, x, w, y := FixPunctuation(a + t), FixPunctuation(a), PunctSpan(mark), FixPunctuation(b);
    assert l == x + (w + y);
    ConcatAssoc(l, x, w, y, x + w);
    assert l == x + w + y;
  }

  lemma SplitBeforeCopy(a: string, t: string)
    requires |t| > 0 && !StartsWithSpacedMark(t)
    requires |a| == 0 || !IsTerminalMark(a[|a| - 1]) || !IsJsWhitespace(t[0])
    ensures FixPunctuation(a + t) == FixPunctuation(a) + [t[0]] + FixPunctuation(t[1..])
  {
    FixPunctuationSplit(a, t);
    UnfoldCopied(t);
    var l, x, y := FixPunctuation(a + t), FixPunctuation(a), FixPunctuation(t[1..]);
    ConcatAssoc(l, x, [t[0]], y, x + [t[0]]);
  }

  /** Any other character is copied in place. */
  lemma CopiesOther(a: string, c: char, b: string)
    requires !(|a| > 0 && IsTerminalMark(a[|a| - 1]) && IsJsWhitespace(c))
    requires !(IsTerminalMark(c) && |b| > 0 && IsJsWhitespace(b[0]))
    ensures FixPunctuation(a + [c] + b) == FixPunctuation(a) + [c] + FixPunctuation(b)
  {
    var t := [c] + b;
    assert a + [c] + b == a + t;
    assert t[0] == c && t[1..] == b;
    assert !StartsWithSpacedMark(t) by {
      if |b| > 0 {
        assert t[1] == b[0];
      }
    }
    SplitBeforeCopy(a, t);
  }
}

=== FILE: scenarios.dfy ===
/** Worked instances of the three passes on small inputs. */
module Scenarios {
  import opened Markup
  import opened Transform
  import opened Punctuation

  /** A span opening with two ideographic spaces keeps "Hello" and moves the spaces into the attribute. */
  lemma IndentScenario()
    ensures FixIndent(Element("span", [], [], "\U{3000}\U{3000}Hello"))
         == Element("span", [IndentClass], [Attr(IndentAttr, "\U{3000}\U{3000}")], "Hello")
  {
    var s := "\U{3000}\U{3000}Hello";
    assert s[0] == '\U{3000}' && s[1] == '\U{3000}' && s[2] == 'H';
    assert IndentRunLength(s) == 2;
    assert s[..2] == "\U{3000}\U{3000}" && s[2..] == "Hello";
  }

  /** A dash span keeps its class, saves its two bars and shows the placeholder text. */
  lemma DashScenario()
    ensures FixDash(Element("span", [DashClass], [], "\U{2015}\U{2015}"))
         == Element("span", [DashClass], [Attr(DashAttr, "\U{2015}\U{2015}")], DashPlaceholder)
  {
  }

  /** The spaced full stop is wrapped and its space dropped; the rest is copied. */
  lemma PunctuationScenario()
    ensures FixPunctuation("Hi. Yo") == "Hi" + PunctSpan('.') + "Yo"
  {
    assert "Hi. Yo" == "Hi" + ['.', ' '] + "Yo";
    WrapsSpacedMark("Hi", '.', ' ', "Yo");
    assert NoSpacedMark("Hi") && NoSpacedMark("Yo");
  }
}

=== FILE: strings.dfy ===
/** Substring tests on strings, as CSS attribute selectors use them. */
module Strings {

  /** `prefix` occurs at the start of `s`. */
  predicate IsPrefix(prefix: string, s: string)
  {
    |prefix| <= |s| && s[..|prefix|] == prefix
  }

  /** `part` occurs somewhere in `s` (every string contains the empty string). */
  predicate Contains(s: string, part: string)
    decreases |s|
  {
    IsPrefix(part, s) || (|s| > 0 && Contains(s[1..], part))
  }

  /** The CSS substring attribute selector `[attr*="value"]`: by section 6.3.2 of
      Selectors Level 3 an empty `value` represents nothing, so it never matches. */
  predicate AttrContains(attr: string, value: string)
  {
    |value| > 0 && Contains(attr, value)
  }

  /** `Contains` means what it says: there is an offset at which `part` starts. */
  lemma {:induction false} ContainsIffOffset(s: string, part: string)
    ensures Contains(s, part) <==> exists k :: 0 <= k <= |s| && IsPrefix(part, s[k..])
    decreases |s|
  {
    if Contains(s, part) {
      if IsPrefix(part, s) {
        assert s[0..] == s;
      } else {
        ContainsIffOffset(s[1..], part);
        var k :| 0 <= k <= |s[1..]| && IsPrefix(part, s[1..][k..]);
        assert s[1..][k..] == s[k + 1..];
      }
    }
    if exists k :: 0 <= k <= |s| && IsPrefix(part, s[k..]) {
      var k :| 0 <= k <= |s| && IsPrefix(part, s[k..]);
      if k == 0 {
        assert s[0..] == s;
      } else {
        assert s[1..][k - 1..] == s[k..];
        ContainsIffOffset(s[1..], part);
      }
    }
  }
}

=== FILE: sync.dfy ===
/** The synchronisation as a whole: the state the script starts in, the
    invariant every reachable state keeps, and what repeated notifications,
    the script's own writes and the timer do to the guard. */
module Sync {
  import opened Options
  import opened Markup
  import opened Transform
  import opened Page
  import opened Engine
  import opened Observer

  /** Script start: `lastHTML = ""`, no wrapper, nothing scheduled or sent. */
  function Init(panels: seq<Panel>, menu: Option<Menu>): PageState
  {
    PageState(panels, menu, "", None, None, 0, 0, 0, 0)
  }

  /** The script inserts a wrapper only while none is in the page, so every
      insertion but the one present now was followed by a removal; while a
      wrapper exists it holds exactly one mirror, and that mirror's markup is
      the transform of the cached markup. Before the first insertion the cache
      is empty and nothing is scheduled. */
  predicate Inv(p: PageState, parse: string -> seq<Node>)
  {
    && p.wrappersAppended == p.wrappersRemoved + (if p.wrapper.Some? then 1 else 0)
    && (p.wrappersAppended == 0 ==> p.lastHtml == "" && p.pendingTriggers == 0)
    && (p.wrapper.Some? ==>
          |p.wrapper.value.mirrors| == 1
          && p.wrapper.value.mirrors[0].content == ProcessMirrorContent(parse, p.lastHtml))
  }

  /** What can happen to the page: an observer notification, the trigger timer
      coming due, the host page replacing its panels and menu, or the host
      taking the wrapper out of the page together with the mirror inside it. */
  datatype Event =
    | Notified
    | TimerFired
    | HostReplaced(panels: seq<Panel>, menu: Option<Menu>)
    | WrapperRemoved

  function Apply(p: PageState, e: Event, parse: string -> seq<Node>): PageState
  {
    match e
    case Notified => Step(p, parse)
    case TimerFired => if p.pendingTriggers > 0 then FirePending(p) else p
    case HostReplaced(panels, menu) => p.(panels := panels, menu := menu)
    case WrapperRemoved =>
      if p.wrapper.Some? then p.(wrapper := None, wrappersRemoved := p.wrappersRemoved + 1) else p
  }

  function Run(p: PageState, events: seq<Event>, parse: string -> seq<Node>): PageState
    decreases |events|
  {
    if |events| == 0 then p else Run(Apply(p, events[0], parse), events[1..], parse)
  }

  lemma InitSatisfiesInv(panels: seq<Panel>, menu: Option<Menu>, parse: string -> seq<Node>)
    ensures Inv(Init(panels, menu), parse)
  {
  }

  lemma ApplyKeepsInv(p: PageState, e: Event, parse: string -> seq<Node>)
    requires Inv(p, parse)
    ensures Inv(Apply(p, e, parse), parse)
  {
  }

  /** Every state reachable from the start satisfies the invariant, so the
      mirror always shows the transform of the markup it was last built from. */
  lemma {:induction false} RunKeepsInv(p: PageState, events: seq<Event>, parse: string -> seq<Node>)
    requires Inv(p, parse)
    ensures Inv(Run(p, events, parse), parse)
    decreases |events|
  {
    if |events| > 0 {
      ApplyKeepsInv(p, events[0], parse);
      RunKeepsInv(Apply(p, events[0], parse), events[1..], parse);
    }
  }

  /** A wrapper the host took away comes back only with a text change: while
      the source markup equals the cache the guard returns before the wrapper
      is looked up, and once it differs the step inserts a new one. */
  lemma LostWrapperWaitsForTextChange(p: PageState, parse: string -> seq<Node>)
    requires p.wrapper.None?
    ensures Step(p, parse).wrapper.Some? <==> Changed(p)
    ensures Changed(p) ==> Step(p, parse).wrappersAppended == p.wrappersAppended + 1
  {
  }

  lemma PanelCandidatesOfStep(p: PageState, parse: string -> seq<Node>)
    ensures PanelCandidates(Step(p, parse).panels) == PanelCandidates(p.panels)
  {
    var r := Step(p, parse);
    forall i | 0 <= i < |p.panels|
      ensures PanelCandidates(r.panels)[i] == PanelCandidates(p.panels)[i]
    {
      assert r.panels[i].(ignored := p.panels[i].ignored) == p.panels[i];
    }
  }

  /** After any step the guard is closed: the source it would pick has exactly
      the cached markup, or there is no source. */
  lemma StepSettles(p: PageState, parse: string -> seq<Node>)
    ensures !Changed(Step(p, parse))
  {
    var r := Step(p, parse);
    PanelCandidatesOfStep(p, parse);
    SelectSourceDependsOnIdsAndClasses(p, r);
    if SelectSource(p).Some? {
      var i := SelectSource(p).value;
      assert r.panels[i].(ignored := p.panels[i].ignored) == p.panels[i];
    }
  }

  /** No feedback loop: a notification caused by the step's own writes, or by
      anything else that leaves the panels, the menu and the cache as the step
      left them (the mirror's content, style or processed flag, the wrapper,
      the timer), changes nothing at all. */
  lemma StepIgnoresOwnWrites(p: PageState, q: PageState, parse: string -> seq<Node>)
    requires q.panels == Step(p, parse).panels
    requires q.menu == Step(p, parse).menu
    requires q.lastHtml == Step(p, parse).lastHtml
    ensures Step(q, parse) == q
  {
    var r := Step(p, parse);
    StepSettles(p, parse);
    SelectSourceDependsOnIdsAndClasses(r, q);
    MarkMenuIdempotent(p.menu);
  }

  /** Two notifications with the same source markup rebuild at most once:
      the second one is a no-op. */
  lemma StepIdempotent(p: PageState, parse: string -> seq<Node>)
    ensures Step(Step(p, parse), parse) == Step(p, parse)
  {
    StepIgnoresOwnWrites(p, Step(p, parse), parse);
  }

  /** The deferred trigger does not reopen the guard: a notification after it
      is a no-op too. */
  lemma TriggerDoesNotReopenGuard(p: PageState, parse: string -> seq<Node>)
    requires Step(p, parse).pendingTriggers > 0
    ensures Step(FirePending(Step(p, parse)), parse) == FirePending(Step(p, parse))
  {
    StepIgnoresOwnWrites(p, FirePending(Step(p, parse)), parse);
  }

  /** The guard is the only way to a rebuild: a step whose source markup equals
      the cache schedules nothing, leaves the mirror alone and keeps the cache. */
  lemma GuardedStepRebuildsNothing(p: PageState, parse: string -> seq<Node>)
    requires SelectSource(p).Some? ==> p.panels[SelectSource(p).value].markup == p.lastHtml
    ensures Step(p, parse).pendingTriggers == p.pendingTriggers
    ensures Step(p, parse).wrapper == p.wrapper
    ensures Step(p, parse).lastHtml == p.lastHtml
  {
  }
}

=== FILE: transform.dfy ===
/** `processMirrorContent`: the leading-space pass and the dash pass over the
    parsed markup, then the punctuation pass over its serialisation. */
module Transform {
  import opened Options
  import opened JsChars
  import opened Markup
  import opened Punctuation

  const DashClass := "dash"
  const IndentClass := "mgk-visual-indent"
  const IndentAttr := "data-indent-content"
  const DashAttr := "data-dash-content"
  /** What the dash pass writes as the dash's text: seven characters of text, not an element. */
  const DashPlaceholder := "<i></i>"

  /** Length of the maximal run of indent spaces that starts `s` (the regex `^([\u2002\u3000]+)`). */
  function IndentRunLength(s: string): (n: nat)
    ensures n <= |s|
    ensures forall i :: 0 <= i < n ==> IsIndentSpace(s[i])
    ensures n < |s| ==> !IsIndentSpace(s[n])
  {
    if |s| > 0 && IsIndentSpace(s[0]) then 1 + IndentRunLength(s[1..]) else 0
  }

  predicate IsDash(n: Node)
  {
    n.Element? && DashClass in n.classes
  }

  /** Selected by `span:not(.dash)` and matched by the leading-space regex. */
  predicate IsIndentTarget(n: Node)
  {
    n.Element? && n.tag == "span" && DashClass !in n.classes
    && |n.content| > 0 && IsIndentSpace(n.content[0])
  }

  /** The leading-space fix on one node: the leading run of indent spaces moves
      into `data-indent-content` and the span is tagged `mgk-visual-indent`.
      The attribute holds only indent spaces, followed by the new content it
      gives back the old content, and the new content no longer starts with
      an indent space; every other attribute and class is kept. Any node that
      is not a target comes back as it was. */
  function FixIndent(n: Node): (r: Node)
    ensures !IsIndentTarget(n) ==> r == n
    ensures IsIndentTarget(n) ==>
      && r.Element? && r.tag == n.tag
      && AttrValue(r.attrs, IndentAttr).Some?
      && var run := AttrValue(r.attrs, IndentAttr).value;
      && |run| > 0
      && (forall i :: 0 <= i < |run| ==> IsIndentSpace(run[i]))
      && run + r.content == n.content
      && (|r.content| == 0 || !IsIndentSpace(r.content[0]))
      && IndentClass in r.classes
      && (forall c :: c in n.classes ==> c in r.classes)
      && (forall c :: c in r.classes ==> c in n.classes || c == IndentClass)
      && (forall name :: name != IndentAttr ==> AttrValue(r.attrs, name) == AttrValue(n.attrs, name))
  {
    if IsIndentTarget(n) then
      var k := IndentRunLength(n.content);
      assert n.content[..k] + n.content[k..] == n.content;
      Element(n.tag, AddClass(n.classes, IndentClass), SetAttr(n.attrs, IndentAttr, n.content[..k]), n.content[k..])
    else n
  }

  /** The leading-space pass over the whole fragment: afterwards no node is a
      target, and nodes that were not targets are unchanged. */
  function FixIndents(ns: seq<Node>): (r: seq<Node>)
    ensures |r| == |ns|
    ensures forall i :: 0 <= i < |ns| ==> r[i] == FixIndent(ns[i])
    ensures forall i :: 0 <= i < |r| ==> !IsIndentTarget(r[i])
    ensures forall i :: 0 <= i < |ns| && !IsIndentTarget(ns[i]) ==> r[i] == ns[i]
  {
    if |ns| == 0 then [] else [FixIndent(ns[0])] + FixIndents(ns[1..])
  }

  /** The dash fix on one node: a `.dash` element keeps its text in
      `data-dash-content` and shows the placeholder text instead; its tag,
      classes and other attributes are kept. Other nodes are untouched. */
  function FixDash(n: Node): (r: Node)
    ensures !IsDash(n) ==> r == n
    ensures IsDash(n) ==>
      && r.Element? && r.tag == n.tag && r.classes == n.classes
      && AttrValue(r.attrs, DashAttr) == Some(n.content)
      && r.content == DashPlaceholder
      && (forall name :: name != DashAttr ==> AttrValue(r.attrs, name) == AttrValue(n.attrs, name))
  {
    if IsDash(n) then n.(attrs := SetAttr(n.attrs, DashAttr, n.content), content := DashPlaceholder)
    else n
  }

  /** The dash pass over the whole fragment, node by node: afterwards the
      dashes are the same elements as before, each showing only the placeholder. */
  function FixDashes(ns: seq<Node>): (r: seq<Node>)
    ensures |r| == |ns|
    ensures forall i :: 0 <= i < |ns| ==> r[i] == FixDash(ns[i])
    ensures forall i :: 0 <= i < |ns| ==> (IsDash(r[i]) <==> IsDash(ns[i]))
    ensures forall i :: 0 <= i < |r| && IsDash(r[i]) ==> r[i].content == DashPlaceholder
  {
    if |ns| == 0 then [] else [FixDash(ns[0])] + FixDashes(ns[1..])
  }

  /** `processMirrorContent(sourceHTML)`. The browser's fragment parser is the
      parameter `parse`. The result never holds a terminator followed by
      whitespace, and when the serialised fragment holds none it is returned as is. */
  function ProcessMirrorContent(parse: string -> seq<Node>, sourceHtml: string): (r: string)
    ensures NoSpacedMark(r)
    ensures NoSpacedMark(Serialize(FixDashes(FixIndents(parse(sourceHtml))))) ==>
              r == Serialize(FixDashes(FixIndents(parse(sourceHtml))))
  {
    var fixed := FixDashes(FixIndents(parse(sourceHtml)));
    FixPunctuationIsClean(Serialize(fixed));
    FixPunctuation(Serialize(fixed))
  }

  /** A second leading-space pass changes nothing. */
  lemma FixIndentsIdempotent(ns: seq<Node>)
    ensures FixIndents(FixIndents(ns)) == FixIndents(ns)
  {
  }

  /** The leading-space pass neither adds nor removes the `dash` class, so the
      dash pass sees the same dashes whichever way the fragment went through it. */
  lemma FixIndentKeepsDashes(n: Node)
    ensures IsDash(FixIndent(n)) == IsDash(n)
  {
  }

  /** Dashes and indent targets are disjoint: the two passes never touch the same node. */
  lemma DashPassSkipsIndentTargets(n: Node)
    ensures IsIndentTarget(n) ==> FixDash(n) == n
    ensures IsDash(n) ==> FixIndent(n) == n
  {
  }

  /** Running the dash pass twice is not a no-op: the second run copies the
      placeholder over the saved text. */
  lemma FixDashNotIdempotent(n: Node)
    requires IsDash(n) && n.content != DashPlaceholder
    ensures FixDash(FixDash(n)) != FixDash(n)
  {
    assert AttrValue(FixDash(FixDash(n)).attrs, DashAttr) == Some(DashPlaceholder);
  }

  /** The regex of the leading-space pass runs on the span's `innerHTML`, i.e.
      on the escaped text. Indent spaces are never escaped and every escape
      starts with `&`, so the run found there is the run of the text itself,
      and cutting it off the markup is cutting it off the text. */
  lemma {:induction false} IndentRunSurvivesEscaping(s: string)
    ensures IndentRunLength(Escape(s, false)) == IndentRunLength(s)
    ensures Escape(s, false)[IndentRunLength(s)..] == Escape(s[IndentRunLength(s)..], false)
  {
    if |s| > 0 {
      var e := EscapeChar(s[0], false);
      assert Escape(s, false) == e + Escape(s[1..], false);
      if IsIndentSpace(s[0]) {
        assert e == [s[0]];
        IndentRunSurvivesEscaping(s[1..]);
        assert Escape(s, false)[1..] == Escape(s[1..], false);
        assert s[1..][IndentRunLength(s[1..])..] == s[IndentRunLength(s)..];
      } else {
        assert e[0] == '&' || e == [s[0]];
        assert Escape(s, false)[0] == e[0];
        assert s[0..] == s;
      }
    }
  }
}
